=== FILE: README.md ===
# s3cp configuration core in Dafny

`s3cp` copies local files to an S3 bucket. This project models three functions of
`cmd/s3cp/main.go` as pure Dafny functions and proves what they do:

- `getEnv` supplies the defaults of the `-access_key`, `-secret_key`, `-b` and `-region` flags
  from the environment. It runs when the flag variables are initialised (main.go:20-32).
- `parseRateLimit` turns the `-max` option into a transfer rate. It runs inside `upload`
  (main.go:85), after the source file has been opened (main.go:76), and again on every upload.
  A malformed `-max` is therefore reported only once an upload has started. Nothing in the file
  calls `upload` or `uploadNonReverse`, so as written `main` never reaches the parser.
- `getCredential` chooses the credential source from the `-p` profile option. Nothing in the
  file calls it: `main` (main.go:132-134) only parses the flags.

Modules, one per concern:

- `Results` (`results.dfy`): `Result<T, E>`. `Failure` stands for a returned Go `error` and
  for a `log.Fatalln` exit.
- `GoStrings` (`gostrings.dfy`): the parts of Go's `strings` package the parser uses, with a
  one-character needle. These are `Index`, `Contains` and `Replace(s, c, "", 1)`, which is
  written `RemoveFirst`.
- `Strconv` (`strconv.dfy`): `strconv.Atoi` on a 64-bit platform. It accepts an optional `+` or
  `-`, then one or more decimal digits, and the value must fit in a signed 64-bit integer.
  `Itoa`, the canonical decimal rendering, is its partner in a round-trip lemma.
- `RateLimit` (`ratelimit.dfy`): `parseRateLimit`. Its rate is in bytes per second and is an
  exact integer.
- `Settings` (`settings.dfy`): `getEnv` over an environment `map<string, string>`, and
  `getCredential` over an `Options` record. That record holds the program's process-wide flag
  variables.

The parser is modelled as the code behaves, quirks included:

- the empty string gives 1 GiB/s (1073741824);
- the kilo test (`k` or `K` anywhere) runs before the mega test (`m` or `M` anywhere);
- each branch deletes the first lower-case letter of its unit, then the first upper-case one;
- what is left must satisfy `Atoi`, so a leading unit letter (`"k100"`) and a sign (`"-5k"`) are
  accepted;
- text with no unit letter, a bare number such as `"512"` included, is an `IllegalFormat` failure.

Three consequences are easy to miss:

- a bare integer is never a rate: every text without a unit letter is rejected
  (`RateLimit.BareIntegerRejected`);
- any sign `Atoi` accepts is accepted, so `"-5k"` gives -5120 and `"-0M"` gives 0;
- `getCredential` never reads the explicit access and secret keys
  (`Settings.KeysNeverConsulted`).

In every non-empty text the parser accepts, each unit letter occurs at most once and the two units
never mix (`RateLimit.AcceptedShape`). So the text holds either one letter of a unit or both cases
of it. For each shape, `RateLimit.UnitCut` and `RateLimit.UnitPair` give the parser's result as
`Scaled` applied to the text with those letters cut out. A success of `Scaled` means that text is
integer text (`RateLimit.Scaled`), and `RateLimit.ScaledValue` gives the value read from it.

## Model

| member | source | states |
|---|---|---|
| `RateLimit.ParseRateLimit` | cmd/s3cp/main.go:50-73 | The empty option gives the 1 GiB/s default. The result is an illegal-format failure exactly when the text is non-empty and holds none of `k`, `K`, `m`, `M`. |
| `RateLimit.KiloAnywhere` | cmd/s3cp/main.go:54-61 | A `k` or `K` inserted anywhere into the decimal text of `n` (before, inside or after the digits) gives `n * 1024`. It is fatal exactly when `n` is outside the signed 64-bit range. |
| `RateLimit.MegaAnywhere` | cmd/s3cp/main.go:62-69 | An `m` or `M` inserted anywhere into the decimal text of `n` gives `n * 1024 * 1024`. It is fatal exactly when `n` is outside the signed 64-bit range. |
| `RateLimit.UnitCut` | cmd/s3cp/main.go:54-69 | Take a unit letter that is the first of its kind, with the other case of its unit absent and, for a mega letter, no kilo letter anywhere. The parser reads the text with that letter cut out, wherever it stands. The unit is 1024 for `k`/`K` and 1048576 for `m`/`M`. |
| `RateLimit.UnitPair` | cmd/s3cp/main.go:54-69 | Take both cases of one unit, in either order, where the first-placed letter is the first of its kind, the other case does not occur before its own position, and, for a mega pair, no kilo letter occurs anywhere. The parser reads the text with the first of each cut out. |
| `RateLimit.IntegerThenUnit` | cmd/s3cp/main.go:54-69 | Any integer text Atoi accepts, signs and leading zeros included, followed by one unit letter, is read as that text times the unit. |
| `RateLimit.IntegerThenBothCases` | cmd/s3cp/main.go:54-69 | The same holds for integer text followed by both cases of one unit letter. |
| `RateLimit.Scaled` | cmd/s3cp/main.go:57-61 | A success means the text left after the unit letters is integer text. A failure is the invalid-number exit, naming the text Atoi rejected. |
| `RateLimit.ScaledValue` | cmd/s3cp/main.go:57-61 | For integer text, the result is the value the text spells (its sign and canonical digits) times the unit. It is an invalid-number failure exactly when that value is outside the signed 64-bit range. |
| `RateLimit.UnitSuffix` | cmd/s3cp/main.go:54-69 | A number in the signed 64-bit range followed by `k`/`K` is read as the number times 1024. Followed by `m`/`M`, it is the number times 1048576. (Outside that range the text is fatal; see `RateLimit.KiloAnywhere`.) |
| `RateLimit.UnitPrefix` | cmd/s3cp/main.go:54-69 | The same values when the unit letter comes before a number in the signed 64-bit range. |
| `RateLimit.BareIntegerRejected` | cmd/s3cp/main.go:71 | The decimal text of any integer, with no unit, is an illegal-format failure. |
| `RateLimit.AcceptedShape` | cmd/s3cp/main.go:54-70 | Every non-empty accepted text consists of digits, signs and unit letters. Each unit letter occurs at most once, and a kilo letter never appears together with a mega letter. |
| `RateLimit.StrippedShape` | cmd/s3cp/main.go:55-57 | If deleting the first `a` and the first `b` leaves text Atoi accepts, then `a` and `b` occur at most once and no other unit letter occurs. |
| `RateLimit.KiloShadowsMega` | cmd/s3cp/main.go:54-62 | Text holding both a kilo and a mega letter always fails with an invalid number, because the kilo branch wins. |
| `RateLimit.RepeatedUnitLetter` | cmd/s3cp/main.go:55-56 | A unit letter that occurs twice is fatal, because only its first occurrence is deleted. |
| `RateLimit.AcceptedExamples` | cmd/s3cp/main.go:50-70 | `"100k"`, `"100K"` and `"k100"` give 102400. `"-5k"` gives -5120. `"2m"` and `"2M"` give 2097152, and `"1M"` gives 1048576. |
| `RateLimit.PlusSignExample` | cmd/s3cp/main.go:62-69 | `"+2m"` gives 2097152. |
| `RateLimit.LeadingZerosExample` | cmd/s3cp/main.go:54-61 | `"007K"` gives 7168. |
| `RateLimit.MinusZeroExample` | cmd/s3cp/main.go:62-69 | `"-0M"` gives a rate of 0. |
| `RateLimit.BothCasesExample` | cmd/s3cp/main.go:62-69 | `"2mM"` gives 2097152. |
| `RateLimit.UnitlessExamples` | cmd/s3cp/main.go:71 | `"512"` and `"abc"` are illegal-format failures. |
| `RateLimit.NonNumericExample` | cmd/s3cp/main.go:57-60 | `"abck"` fails, and Atoi reports the remainder `"abc"`. |
| `RateLimit.KiloThenMegaExample` | cmd/s3cp/main.go:54-60 | `"1km"` fails, and Atoi reports the remainder `"1m"`. |
| `GoStrings.Index` | cmd/s3cp/main.go:54-56 | The result is -1 exactly when the character is absent. Otherwise it is the position of its first occurrence. |
| `GoStrings.Contains` | cmd/s3cp/main.go:54 | The character occurs in the text. |
| `GoStrings.ContainsIsIndex` | cmd/s3cp/main.go:54 | Go's own definition: `Contains` holds exactly when `Index` finds the character. |
| `GoStrings.RemoveFirst` | cmd/s3cp/main.go:55-56 | The text is unchanged when the character is absent. Otherwise the result is exactly one character shorter. |
| `GoStrings.RemoveFirstCounts` | cmd/s3cp/main.go:55-56 | Deleting removes exactly one occurrence of the character when it is present, and leaves every other character's count unchanged. |
| `GoStrings.RemoveFirstAt` | cmd/s3cp/main.go:55-56 | The occurrence deleted is the first one: `RemoveFirst(p + [c] + q, c) == p + q` whenever `c` is not in `p`. |
| `Strconv.Atoi` | cmd/s3cp/main.go:57-60 | A success means the text is an optional sign followed by at least one digit, and the value fits in 64 bits. A negative value needs a leading `-`. A failure names the input. |
| `Strconv.NatDigits` | cmd/s3cp/main.go:57 | The canonical digits of a natural number are non-empty and all decimal. They have no leading zero, and their value is the number. |
| `Strconv.AtoiItoa` | cmd/s3cp/main.go:57 | Atoi reads back exactly the integer Itoa writes. It fails exactly when that integer is outside the signed 64-bit range. |
| `Strconv.AtoiSignZeros` | cmd/s3cp/main.go:57 | Atoi accepts an optional `+` or `-` and leading zeros before canonical digits. It reads the value they spell, with `-0` read as zero, and fails naming the text exactly when that value does not fit in 64 bits. |
| `Strconv.CanonicalDigits` | cmd/s3cp/main.go:57 | Digits without a superfluous leading zero are exactly the canonical digits of their own value. |
| `Strconv.Parts` | cmd/s3cp/main.go:57 | Every text Atoi accepts syntactically is a sign (none, `+` or `-`), then zeros, then the canonical digits of a magnitude. |
| `Strconv.AtoiIntegerText` | cmd/s3cp/main.go:57-60 | The converse of `Strconv.Atoi`'s contract: integer text is read as the value its parts spell, and fails exactly when that value does not fit in 64 bits. |
| `Strconv.LeadingZeros` | cmd/s3cp/main.go:57 | Zeros put in front of a digit string do not change its value. |
| `Settings.Lookup` | cmd/s3cp/main.go:96 | Like `os.Getenv`: the result is empty exactly when the variable is unset or set to the empty string. A non-empty result is the variable's value. |
| `Settings.GetEnv` | cmd/s3cp/main.go:95-102 | The result is either the default or the variable's non-empty value. A non-empty value always wins, and an unset variable gives the default. |
| `Settings.EmptyMeansUnset` | cmd/s3cp/main.go:96-98 | A variable set to the empty string behaves exactly like an unset one and yields the default. |
| `Settings.OtherVariablesIgnored` | cmd/s3cp/main.go:96 | Changing any other variable does not change the result. |
| `Settings.DefaultFallback` | cmd/s3cp/main.go:97-101 | A non-empty default guarantees a non-empty result. |
| `Settings.GetCredential` | cmd/s3cp/main.go:104-114 | The result is the "no credentials" failure exactly when the profile name is empty. Otherwise it is shared-file credentials, built as `credentials.NewSharedCredentials("", profile)` builds them: that profile in the default file. |
| `Settings.CredentialDependsOnProfileOnly` | cmd/s3cp/main.go:104-114 | Two option sets with the same profile name resolve to the same result. |
| `Settings.KeysNeverConsulted` | cmd/s3cp/main.go:104-114 | Changing the explicit access and secret keys never changes the result. Without a profile the result is always the "no credentials" failure. |

## Left out

- `upload` (cmd/s3cp/main.go:75-93): network I/O through the AWS SDK uploader and the
  `juju/ratelimit` token bucket (100 KiB burst). Neither library is part of this model.
- `uploadNonReverse` (cmd/s3cp/main.go:116-130): it opens and stats the file system before
  uploading, which is I/O.
- Flag declarations and `main` (cmd/s3cp/main.go:19-48, 132-134): `flag` package plumbing. The
  flag values appear only as the fields of `Settings.Options`.
- The `cred` variable (cmd/s3cp/main.go:40): it is handed to the AWS SDK in `upload` and is not
  modelled. Nothing in the file assigns it.
- RateLimit.ParseRateLimit: it returns an exact integer. The source returns
  `float64(i) * 1024`, which rounds when `|i|` exceeds 2^53; the model does not round.
- RateLimit.ParseRateLimit: the process exit of `log.Fatalln` and the text it prints become a
  `Failure` value.
- Strconv.Atoi: it assumes Go's `int` is 64 bits wide. On a 32-bit platform the accepted range
  is that of a signed 32-bit integer, which the model does not cover.
- Strconv.Atoi: it does not tell Go's syntax error from its range error. Both become one error
  that carries the input text, which is all the parser inspects (`err != nil`).
- Settings.GetCredential: the `result == nil` branch (cmd/s3cp/main.go:108-110) is
  unreachable, because `credentials.NewSharedCredentials` always returns a value.
  Loading the credentials file happens later, inside the SDK, and is not modelled.
- Go strings are byte strings, but the model works on characters. Every character the parser
  looks for is ASCII, and an ASCII byte never occurs inside a multi-byte UTF-8 sequence, so
  both find the same occurrences.

=== FILE: gostrings.dfy ===
/** The three functions of Go's `strings` package that the rate parser uses,
    specialised to a one-character needle (the parser only ever searches for
    a single ASCII letter). Go strings are byte strings; an ASCII letter's
    byte never occurs inside a multi-byte UTF-8 sequence, so working on
    characters finds exactly the occurrences Go finds. */
module GoStrings {

  /** `strings.Index(s, string(c))`: the position of the first `c`, or -1. */
  function Index(s: string, c: char): (i: int)
    ensures -1 <= i < |s|
    ensures i == -1 <==> c !in s
    ensures 0 <= i ==> s[i] == c && c !in s[..i]
  {
    if |s| == 0 then -1
    else if s[0] == c then 0
    else
      var j := Index(s[1..], c);
      assert j >= 0 ==> s[..j + 1] == [s[0]] + s[1..][..j];
      if j < 0 then -1 else j + 1
  }

  /** `strings.Contains(s, string(c))`, which Go defines as
      `Index(s, c) >= 0`. */
  predicate Contains(s: string, c: char)
  {
    c in s
  }

  /** Go's own definition of `Contains`. */
  lemma ContainsIsIndex(s: string, c: char)
    ensures Contains(s, c) <==> Index(s, c) >= 0
  {
  }

  /** `strings.Replace(s, string(c), "", 1)`: delete the first `c`, if any. */
  function RemoveFirst(s: string, c: char): (r: string)
    ensures c !in s ==> r == s
    ensures c in s ==> |r| == |s| - 1
  {
    var i := Index(s, c);
    if i < 0 then s else s[..i] + s[i + 1..]
  }

  /** Exactly one `c` goes, and every other character stays. */
  lemma RemoveFirstCounts(s: string, c: char, x: char)
    ensures multiset(RemoveFirst(s, c))[x] ==
              if x == c && c in s then multiset(s)[x] - 1 else multiset(s)[x]
  {
    var i := Index(s, c);
    if i >= 0 {
      assert s == s[..i] + [c] + s[i + 1..];
      assert multiset(s) == multiset(s[..i]) + multiset{c} + multiset(s[i + 1..]);
    }
  }

  /** The first `c` is the one deleted: whatever precedes it is untouched. */
  lemma RemoveFirstAt(p: string, c: char, q: string)
    requires c !in p
    ensures RemoveFirst(p + [c] + q, c) == p + q
  {
    var s := p + [c] + q;
    var i := Index(s, c);
    assert s[|p|] == c && s[..|p|] == p;
    assert i == |p|;
    assert s[..i] == p;
    assert s[i + 1..] == q;
  }
}

=== FILE: ratelimit.dfy ===
/** `parseRateLimit` from cmd/s3cp/main.go: the `-max` option's text turned
    into a transfer rate in bytes per second. A malformed option ends the
    process through `log.Fatalln`, modelled as a `Failure`. */
module RateLimit {
  import opened Results
  import opened GoStrings
  import opened Strconv

  const KiB: int := 1024
  const MiB: int := 1024 * 1024
  /** The rate used when `-max` is not given: 1 GiB/s, effectively unthrottled. */
  const DefaultRate: int := 1024 * 1024 * 1024

  /** Why the process stops: no unit letter at all, or the text left after
      deleting the unit letters is not an integer Atoi accepts. */
  datatype RateError = IllegalFormat | InvalidNumber(cause: NumError)

  predicate HasKilo(r: string)
  {
    Contains(r, 'k') || Contains(r, 'K')
  }

  predicate HasMega(r: string)
  {
    Contains(r, 'm') || Contains(r, 'M')
  }

  predicate IsUnitLetter(c: char)
  {
    c == 'k' || c == 'K' || c == 'm' || c == 'M'
  }

  predicate NoUnitLetter(s: string)
  {
    'k' !in s && 'K' !in s && 'm' !in s && 'M' !in s
  }

  predicate IsKilo(c: char)
  {
    c == 'k' || c == 'K'
  }

  /** The bytes a unit letter stands for. */
  function UnitScale(c: char): int
    requires IsUnitLetter(c)
  {
    if IsKilo(c) then KiB else MiB
  }

  /** The same unit letter in the other case. */
  function OtherCase(c: char): char
    requires IsUnitLetter(c)
  {
    match c
    case 'k' => 'K'
    case 'K' => 'k'
    case 'm' => 'M'
    case _ => 'm'
  }

  /** Multiply the integer Atoi reads from `rest` by `unit`; text Atoi
      rejects is fatal, and the error names that text. */
  function Scaled(rest: string, unit: int): (res: Result<int, RateError>)
    ensures res.Success? ==> IsIntegerText(rest)
    ensures res.Failure? ==> res == Failure(InvalidNumber(NumError(rest)))
  {
    match Atoi(rest)
    case Success(i) => Success(i * unit)
    case Failure(e) => Failure(InvalidNumber(e))
  }

  /** For integer text, the value is what the text spells times the unit,
      unless that does not fit in 64 bits. */
  lemma ScaledValue(rest: string, unit: int)
    requires IsIntegerText(rest)
    ensures var v := SignedValue(Parts(rest));
            Scaled(rest, unit) ==
              if InInt64(v) then Success(v * unit) else Failure(InvalidNumber(NumError(rest)))
  {
    AtoiIntegerText(rest);
  }

  /** The kilo test comes first; each branch deletes the first lower-case and
      then the first upper-case letter of its unit, wherever they stand. */
  function ParseRateLimit(r: string): (res: Result<int, RateError>)
    ensures r == [] ==> res == Success(DefaultRate)
    ensures res == Failure(IllegalFormat) <==> r != [] && NoUnitLetter(r)
  {
    if r == [] then
      Success(DefaultRate)
    else if HasKilo(r) then
      Scaled(RemoveFirst(RemoveFirst(r, 'k'), 'K'), KiB)
    else if HasMega(r) then
      Scaled(RemoveFirst(RemoveFirst(r, 'm'), 'M'), MiB)
    else
      Failure(IllegalFormat)
  }

  /** Every character of accepted integer text is a digit or a sign. */
  lemma IntegerTextAlphabet(s: string, x: char)
    requires IsIntegerText(s) && x in s
    ensures IsDigit(x) || IsSign(x)
  {
    var i :| 0 <= i < |s| && s[i] == x;
    if i > 0 {
      assert s[i] == s[1..][i - 1];
    }
  }

  /** A `k` or `K` may stand anywhere in the number, before, inside or after
      its digits: the value read is the number times 1024, and a number
      outside the signed 64-bit range is fatal. */
  lemma KiloAnywhere(n: int, p: string, q: string, c: char)
    requires c == 'k' || c == 'K'
    requires p + q == Itoa(n)
    ensures ParseRateLimit(p + [c] + q) ==
              if InInt64(n) then Success(n * KiB) else Failure(InvalidNumber(NumError(Itoa(n))))
  {
    var r := p + [c] + q;
    NoLettersInItoa(n, p, q);
    assert r[|p|] == c;
    var r' := RemoveFirst(r, 'k');
    if c == 'k' {
      RemoveFirstAt(p, 'k', q);
      assert r' == Itoa(n);
    } else {
      assert 'k' !in r;
      assert r' == r;
      RemoveFirstAt(p, 'K', q);
    }
    assert 'K' !in Itoa(n);
    assert RemoveFirst(r', 'K') == Itoa(n);
    assert HasKilo(r);
    assert ParseRateLimit(r) == Scaled(Itoa(n), KiB);
    AtoiItoa(n);
  }

  /** Likewise for `m` or `M`: the number times 1024 * 1024. (The text of a
      number holds no kilo letter that could take precedence.) */
  lemma MegaAnywhere(n: int, p: string, q: string, c: char)
    requires c == 'm' || c == 'M'
    requires p + q == Itoa(n)
    ensures ParseRateLimit(p + [c] + q) ==
              if InInt64(n) then Success(n * MiB) else Failure(InvalidNumber(NumError(Itoa(n))))
  {
    var r := p + [c] + q;
    NoLettersInItoa(n, p, q);
    assert r[|p|] == c;
    assert 'k' !in r && 'K' !in r;
    var r' := RemoveFirst(r, 'm');
    if c == 'm' {
      RemoveFirstAt(p, 'm', q);
      assert r' == Itoa(n);
    } else {
      assert 'm' !in r;
      assert r' == r;
      RemoveFirstAt(p, 'M', q);
    }
    assert 'M' !in Itoa(n);
    assert RemoveFirst(r', 'M') == Itoa(n);
    assert !HasKilo(r) && HasMega(r);
    assert ParseRateLimit(r) == Scaled(Itoa(n), MiB);
    AtoiItoa(n);
  }

  lemma NoLettersInItoa(n: int, p: string, q: string)
    requires p + q == Itoa(n)
    ensures NoUnitLetter(p) && NoUnitLetter(q) && NoUnitLetter(p + q)
  {
    var s := Itoa(n);
    forall i | 0 <= i < |p| ensures !IsUnitLetter(p[i]) {
      assert p[i] == s[i];
    }
    forall i | 0 <= i < |q| ensures !IsUnitLetter(q[i]) {
      assert q[i] == s[|p| + i];
    }
  }

  /** A bare integer, with no unit letter, is always rejected. */
  lemma BareIntegerRejected(n: int)
    ensures ParseRateLimit(Itoa(n)) == Failure(IllegalFormat)
  {
    NoLettersInItoa(n, Itoa(n), []);
    assert Itoa(n) + [] == Itoa(n);
  }

  /** Everything the parser accepts, apart from the empty default, is a
      signed decimal number with exactly one unit: each letter of the unit
      occurs at most once, and the two units are never mixed, because the
      kilo branch leaves any `m` or `M` in the text handed to Atoi. */
  lemma AcceptedShape(r: string)
    requires r != [] && ParseRateLimit(r).Success?
    ensures forall x :: x in r ==> IsDigit(x) || IsSign(x) || IsUnitLetter(x)
    ensures multiset(r)['k'] <= 1 && multiset(r)['K'] <= 1
    ensures multiset(r)['m'] <= 1 && multiset(r)['M'] <= 1
    ensures ('k' in r || 'K' in r) ==> 'm' !in r && 'M' !in r
  {
    if HasKilo(r) {
      KiloBranchShape(r);
    } else {
      MegaBranchShape(r);
    }
  }

  /** The kilo branch accepted `r`. */
  lemma KiloBranchShape(r: string)
    requires HasKilo(r) && IsIntegerText(RemoveFirst(RemoveFirst(r, 'k'), 'K'))
    ensures forall x :: x in r ==> IsDigit(x) || IsSign(x) || IsUnitLetter(x)
    ensures multiset(r)['k'] <= 1 && multiset(r)['K'] <= 1
    ensures 'm' !in r && 'M' !in r
  {
    StrippedShape(r, 'k', 'K');
    assert IsUnitLetter('m') && IsUnitLetter('M');
  }

  /** The mega branch accepted `r`, which holds no kilo letter. */
  lemma MegaBranchShape(r: string)
    requires !HasKilo(r) && IsIntegerText(RemoveFirst(RemoveFirst(r, 'm'), 'M'))
    ensures forall x :: x in r ==> IsDigit(x) || IsSign(x) || IsUnitLetter(x)
    ensures multiset(r)['m'] <= 1 && multiset(r)['M'] <= 1
    ensures multiset(r)['k'] == 0 && multiset(r)['K'] == 0
  {
    StrippedShape(r, 'm', 'M');
  }

  /** If deleting the first `a` and the first `b` leaves integer text, then
      `a` and `b` occur at most once and no other letter occurs. */
  lemma StrippedShape(r: string, a: char, b: char)
    requires IsUnitLetter(a) && IsUnitLetter(b) && a != b
    requires IsIntegerText(RemoveFirst(RemoveFirst(r, a), b))
    ensures forall x :: x in r ==> IsDigit(x) || IsSign(x) || IsUnitLetter(x)
    ensures multiset(r)[a] <= 1 && multiset(r)[b] <= 1
    ensures forall x :: IsUnitLetter(x) && x != a && x != b ==> x !in r
  {
    forall x | x in r ensures IsDigit(x) || IsSign(x) || IsUnitLetter(x) {
      StrippedChar(r, a, b, x);
    }
    forall x | IsUnitLetter(x) ensures x == a || x == b || x !in r {
      StrippedChar(r, a, b, x);
    }
    StrippedChar(r, a, b, a);
    StrippedChar(r, a, b, b);
  }

  /** The fate of one character `x` of `r` under the same deletions. */
  lemma StrippedChar(r: string, a: char, b: char, x: char)
    requires a != b && IsUnitLetter(a) && IsUnitLetter(b)
    requires IsIntegerText(RemoveFirst(RemoveFirst(r, a), b))
    ensures x in r ==> IsDigit(x) || IsSign(x) || IsUnitLetter(x)
    ensures IsUnitLetter(x) ==> multiset(r)[x] <= (if x == a || x == b then 1 else 0)
  {
    var rest := RemoveFirst(RemoveFirst(r, a), b);
    RemoveFirstCount(r, a, b, x);
    if x in r && !IsUnitLetter(x) {
      assert x in multiset(rest);
      IntegerTextAlphabet(rest, x);
    }
    if IsUnitLetter(x) {
      RestHasNoLetter(rest);
      assert multiset(rest)[x] == 0;
    }
  }

  lemma RestHasNoLetter(rest: string)
    requires IsIntegerText(rest)
    ensures NoUnitLetter(rest)
  {
    forall x | x in rest ensures IsDigit(x) || IsSign(x) {
      IntegerTextAlphabet(rest, x);
    }
  }

  /** How often `x` occurs after deleting the first `a` and then the first `b`. */
  lemma RemoveFirstCount(s: string, a: char, b: char, x: char)
    requires a != b
    ensures multiset(RemoveFirst(RemoveFirst(s, a), b))[x] ==
              if (x == a && a in s) || (x == b && b in s) then multiset(s)[x] - 1
              else multiset(s)[x]
  {
    var s' := RemoveFirst(s, a);
    RemoveFirstCounts(s, a, x);
    RemoveFirstCounts(s, a, b);
    assert b in s' <==> b in s by {
      assert b in multiset(s') <==> b in multiset(s);
    }
    RemoveFirstCounts(s', b, x);
  }

  /** The kilo test runs first, so a text holding both units is fatal: the
      mega letter is still there when Atoi reads the number. */
  lemma KiloShadowsMega(r: string)
    requires 'k' in r || 'K' in r
    requires 'm' in r || 'M' in r
    ensures ParseRateLimit(r).Failure? && ParseRateLimit(r).error.InvalidNumber?
  {
    if ParseRateLimit(r).Success? {
      AcceptedShape(r);
    }
  }

  /** A repeated unit letter is fatal: only its first occurrence is deleted. */
  lemma RepeatedUnitLetter(r: string, c: char)
    requires IsUnitLetter(c) && multiset(r)[c] >= 2
    ensures ParseRateLimit(r).Failure? && ParseRateLimit(r).error.InvalidNumber?
  {
    assert c in multiset(r);
    if ParseRateLimit(r).Success? {
      AcceptedShape(r);
    }
  }

  /** Whatever surrounds a unit letter, the parser reads the text with that
      letter cut out, provided it is the first of its kind, the other case of
      its unit is absent, and, for a mega letter, no kilo letter takes
      precedence. Neither its position nor the characters around it are
      checked. */
  lemma UnitCut(p: string, q: string, c: char)
    requires IsUnitLetter(c) && c !in p && OtherCase(c) !in p + q
    requires !IsKilo(c) ==> 'k' !in p + q && 'K' !in p + q
    ensures ParseRateLimit(p + [c] + q) == Scaled(p + q, UnitScale(c))
  {
    var r := p + [c] + q;
    InSplice(p, [c], q, c);
    if IsKilo(c) {
      CutOne(p, q, c, 'k', 'K');
      assert HasKilo(r);
      assert ParseRateLimit(r) == Scaled(RemoveFirst(RemoveFirst(r, 'k'), 'K'), KiB);
    } else {
      InSplice(p, [c], q, 'k');
      InSplice(p, [c], q, 'K');
      CutOne(p, q, c, 'm', 'M');
      assert !HasKilo(r) && HasMega(r);
      assert ParseRateLimit(r) == Scaled(RemoveFirst(RemoveFirst(r, 'm'), 'M'), MiB);
    }
  }

  /** Both cases of one unit, in either order: the parser reads the text
      with the first of each cut out. */
  lemma UnitPair(p: string, q: string, t: string, c: char)
    requires IsUnitLetter(c) && c !in p && OtherCase(c) !in p + q
    requires !IsKilo(c) ==> 'k' !in p + q + t && 'K' !in p + q + t
    ensures ParseRateLimit(p + [c] + q + [OtherCase(c)] + t) == Scaled(p + q + t, UnitScale(c))
  {
    var o := OtherCase(c);
    var r := p + [c] + q + [o] + t;
    InSplice(p + [c] + q, [o], t, c);
    InSplice(p, [c], q, c);
    if IsKilo(c) {
      CutTwo(p, q, t, c, o, 'k', 'K');
      assert HasKilo(r);
      assert ParseRateLimit(r) == Scaled(RemoveFirst(RemoveFirst(r, 'k'), 'K'), KiB);
    } else {
      KiloFreePair(p, q, t, c, o);
      CutTwo(p, q, t, c, o, 'm', 'M');
      assert !HasKilo(r) && HasMega(r);
      assert ParseRateLimit(r) == Scaled(RemoveFirst(RemoveFirst(r, 'm'), 'M'), MiB);
    }
  }

  /** Splicing mega letters into kilo-free text leaves it kilo-free. */
  lemma KiloFreePair(p: string, q: string, t: string, c: char, o: char)
    requires !IsKilo(c) && !IsKilo(o)
    requires 'k' !in p + q + t && 'K' !in p + q + t
    ensures 'k' !in p + [c] + q + [o] + t && 'K' !in p + [c] + q + [o] + t
  {
    InSplice(p, [], q, 'k');
    InSplice(p, [], q, 'K');
    assert p + [] + q == p + q;
    InSplice(p + q, [], t, 'k');
    InSplice(p + q, [], t, 'K');
    assert p + q + [] + t == p + q + t;
    InSplice(p, [c], q, 'k');
    InSplice(p, [c], q, 'K');
    InSplice(p + [c] + q, [o], t, 'k');
    InSplice(p + [c] + q, [o], t, 'K');
  }

  /** Whether `x` occurs once `m` is spliced between `p` and `q`. */
  lemma InSplice(p: string, m: string, q: string, x: char)
    ensures x in p + m + q <==> x in m || x in p + q
  {
    if x in p + m + q {
      var i :| 0 <= i < |p + m + q| && (p + m + q)[i] == x;
      if i < |p| {
        assert (p + q)[i] == x;
      } else if i >= |p| + |m| {
        assert (p + q)[i - |m|] == x;
      } else {
        assert m[i - |p|] == x;
      }
    }
    if x in p + q {
      var i :| 0 <= i < |p + q| && (p + q)[i] == x;
      if i < |p| {
        assert (p + m + q)[i] == x;
      } else {
        assert (p + m + q)[i + |m|] == x;
      }
    }
  }

  /** Deleting the first `lo` and then the first `up` removes exactly the
      spliced-in `c` when `c` is the first of its kind and the other is
      absent. */
  lemma CutOne(p: string, q: string, c: char, lo: char, up: char)
    requires lo != up && (c == lo || c == up) && c !in p
    requires (if c == lo then up else lo) !in p + q
    ensures RemoveFirst(RemoveFirst(p + [c] + q, lo), up) == p + q
  {
    InSplice(p, [c], q, if c == lo then up else lo);
    RemoveFirstAt(p, c, q);
  }

  /** Deleting the first `lo` and then the first `up` removes exactly the
      spliced-in pair, whichever comes first. */
  lemma CutTwo(p: string, q: string, t: string, c: char, o: char, lo: char, up: char)
    requires lo != up && ((c == lo && o == up) || (c == up && o == lo))
    requires c !in p && o !in p + q
    ensures RemoveFirst(RemoveFirst(p + [c] + q + [o] + t, lo), up) == p + q + t
  {
    InSplice(p, [c], q, o);
    if c == lo {
      assert p + [c] + q + [o] + t == p + [c] + (q + [o] + t);
      RemoveFirstAt(p, c, q + [o] + t);
      assert p + (q + [o] + t) == (p + q) + [o] + t;
      RemoveFirstAt(p + q, o, t);
    } else {
      RemoveFirstAt(p + [c] + q, o, t);
      assert p + [c] + q + t == p + [c] + (q + t);
      RemoveFirstAt(p, c, q + t);
      assert p + (q + t) == p + q + t;
    }
  }

  /** The usual spelling: the number followed by its unit letter, in
      either case. */
  lemma UnitSuffix(n: int, c: char)
    requires IsUnitLetter(c) && InInt64(n)
    ensures (c == 'k' || c == 'K') ==> ParseRateLimit(Itoa(n) + [c]) == Success(n * KiB)
    ensures (c == 'm' || c == 'M') ==> ParseRateLimit(Itoa(n) + [c]) == Success(n * MiB)
  {
    var s := Itoa(n);
    var e: string := [];
    assert s + e == s;
    assert s + [c] + e == s + [c];
    if c == 'k' || c == 'K' {
      KiloAnywhere(n, s, e, c);
    } else {
      MegaAnywhere(n, s, e, c);
    }
  }

  /** The unit letter may as well come first. */
  lemma UnitPrefix(n: int, c: char)
    requires IsUnitLetter(c) && InInt64(n)
    ensures (c == 'k' || c == 'K') ==> ParseRateLimit([c] + Itoa(n)) == Success(n * KiB)
    ensures (c == 'm' || c == 'M') ==> ParseRateLimit([c] + Itoa(n)) == Success(n * MiB)
  {
    var s := Itoa(n);
    var e: string := [];
    assert e + s == s;
    assert e + [c] + s == [c] + s;
    NoLettersInItoa(n, e, s);
    UnitCut(e, s, c);
    AtoiItoa(n);
  }

  /** Rates as the option's usage text writes them, and the quirks: a
      leading unit letter, a negative number. The digit strings are named as
      parameters because one lemma evaluating the parser on seven literal
      texts is more than the verifier's per-proof budget allows; this way
      each case is an instance of `UnitSuffix` or `UnitPrefix`. */
  lemma AcceptedExamples(hundred: string, minusFive: string, two: string, one: string)
    requires hundred == "100" && minusFive == "-5" && two == "2" && one == "1"
    ensures ParseRateLimit(hundred + ['k']) == Success(102400)
    ensures ParseRateLimit(hundred + ['K']) == Success(102400)
    ensures ParseRateLimit(['k'] + hundred) == Success(102400)
    ensures ParseRateLimit(minusFive + ['k']) == Success(-5120)
    ensures ParseRateLimit(two + ['m']) == Success(2097152)
    ensures ParseRateLimit(two + ['M']) == Success(2097152)
    ensures ParseRateLimit(one + ['M']) == Success(1048576)
  {
    assert Itoa(100) == hundred && Itoa(-5) == minusFive;
    assert Itoa(2) == two && Itoa(1) == one;
    UnitSuffix(100, 'k');
    UnitSuffix(100, 'K');
    UnitPrefix(100, 'k');
    UnitSuffix(-5, 'k');
    UnitSuffix(2, 'm');
    UnitSuffix(2, 'M');
    UnitSuffix(1, 'M');
  }

  /** Any integer text Atoi accepts, followed by one unit letter, is read
      as its value times the unit. */
  lemma IntegerThenUnit(s: string, c: char)
    requires IsIntegerText(s) && IsUnitLetter(c)
    ensures ParseRateLimit(s + [c]) == Scaled(s, UnitScale(c))
  {
    RestHasNoLetter(s);
    var e: string := [];
    assert s + [c] + e == s + [c] && s + e == s;
    UnitCut(s, e, c);
  }

  /** A leading `+` is accepted: `"+2m"` gives 2 MiB/s. */
  lemma PlusSignExample()
    ensures ParseRateLimit("+2m") == Success(2097152)
  {
    var plusTwo := "+2";
    assert plusTwo + ['m'] == "+2m";
    var e: string := [];
    assert plusTwo == "+" + e + NatDigits(2);
    AtoiSignZeros("+", e, 2);
    IntegerThenUnit(plusTwo, 'm');
  }

  /** Superfluous leading zeros are accepted: `"007K"` gives 7 KiB/s. */
  lemma LeadingZerosExample()
    ensures ParseRateLimit("007K") == Success(7168)
  {
    var zeroZeroSeven := "007";
    assert zeroZeroSeven + ['K'] == "007K";
    var e: string := [];
    assert zeroZeroSeven == e + "00" + NatDigits(7);
    AtoiSignZeros(e, "00", 7);
    IntegerThenUnit(zeroZeroSeven, 'K');
  }

  /** Minus zero is zero: `"-0M"` sets a rate of 0. */
  lemma MinusZeroExample()
    ensures ParseRateLimit("-0M") == Success(0)
  {
    var minusZero := "-0";
    assert minusZero + ['M'] == "-0M";
    var e: string := [];
    assert minusZero == "-" + e + NatDigits(0);
    AtoiSignZeros("-", e, 0);
    assert Atoi(minusZero) == Success(0);
    IntegerThenUnit(minusZero, 'M');
    assert Scaled(minusZero, MiB) == Success(0);
  }

  /** Any integer text Atoi accepts, followed by both cases of one unit
      letter, is read as its value times the unit. */
  lemma IntegerThenBothCases(s: string, c: char)
    requires IsIntegerText(s) && IsUnitLetter(c)
    ensures ParseRateLimit(s + [c, OtherCase(c)]) == Scaled(s, UnitScale(c))
  {
    RestHasNoLetter(s);
    var e: string := [];
    assert s + [c] + e + [OtherCase(c)] + e == s + [c, OtherCase(c)];
    assert s + e + e == s;
    UnitPair(s, e, e, c);
  }

  /** Both cases of one unit together are accepted: `"2mM"`. */
  lemma BothCasesExample()
    ensures ParseRateLimit("2mM") == Success(2097152)
  {
    var two := "2";
    assert two + ['m', 'M'] == "2mM";
    var e: string := [];
    assert two == e + e + NatDigits(2);
    AtoiSignZeros(e, e, 2);
    assert Atoi(two) == Success(2);
    IntegerThenBothCases(two, 'm');
  }

  /** Text without any unit letter, a bare number included, is an illegal
      format. */
  lemma UnitlessExamples()
    ensures ParseRateLimit("512") == Failure(IllegalFormat)
    ensures ParseRateLimit("abc") == Failure(IllegalFormat)
  {
    assert NoUnitLetter("512") && NoUnitLetter("abc");
  }

  /** A remainder that is not a number is fatal. */
  lemma NonNumericExample()
    ensures ParseRateLimit("abck") == Failure(InvalidNumber(NumError("abc")))
  {
    var abc := "abc";
    assert abc + ['k'] == "abck";
    var e: string := [];
    assert abc + e == abc && abc + ['k'] + e == abc + ['k'];
    assert 'K' !in abc && 'k' !in abc;
    UnitCut(abc, e, 'k');
    assert !IsDigit(abc[0]) && !IsSign(abc[0]);
  }

  /** The kilo branch wins and hands the mega letter to Atoi. */
  lemma KiloThenMegaExample()
    ensures ParseRateLimit("1km") == Failure(InvalidNumber(NumError("1m")))
  {
    var one := "1";
    assert one + ['k', 'm'] == "1km" && one + ['m'] == "1m";
    var m: string := ['m'];
    assert one + ['k'] + m == one + ['k', 'm'];
    assert 'K' !in one + m && 'k' !in one;
    UnitCut(one, m, 'k');
    assert (one + m)[1] == 'm';
  }
}

=== FILE: results.dfy ===
/** Success/failure results, used wherever the program either returns a value
    or terminates with a diagnostic. */
module Results {

  /** `Failure` stands for both a returned Go `error` and a `log.Fatalln`
      exit: in either case no value is produced and the error is reported. */
  datatype Result<+T, +E> = Success(value: T) | Failure(error: E)
}

=== FILE: settings.dfy ===
/** The two configuration decisions of cmd/s3cp/main.go: `getEnv`, which
    supplies the flags' defaults from the environment, and `getCredential`,
    which picks the credential source from the `-p` profile option. The
    process-wide flag variables are gathered into one `Options` value. */
module Settings {
  import opened Results

  /** The process environment. `os.Getenv` reads an unset variable as "". */
  type Environment = map<string, string>

  /** `os.Getenv`: an empty result cannot tell an unset variable from one
      set to "". */
  function Lookup(env: Environment, key: string): (v: string)
    ensures v == "" <==> key !in env || env[key] == ""
    ensures v != "" ==> key in env && env[key] == v
  {
    if key in env then env[key] else ""
  }

  /** `getEnv`: the variable's value, or `def` when that value is empty. */
  function GetEnv(env: Environment, key: string, def: string): (v: string)
    ensures v == def || (key in env && v == env[key] && v != [])
    ensures key in env && env[key] != [] ==> v == env[key]
    ensures key !in env ==> v == def
  {
    var value := Lookup(env, key);
    if |value| == 0 then def else value
  }

  /** Setting a variable to the empty string is the same as not setting it. */
  lemma EmptyMeansUnset(env: Environment, key: string, def: string)
    ensures GetEnv(env[key := ""], key, def) == GetEnv(env - {key}, key, def) == def
  {
  }

  /** Only the named variable matters. */
  lemma OtherVariablesIgnored(env: Environment, key: string, other: string, value: string, def: string)
    requires other != key
    ensures GetEnv(env[other := value], key, def) == GetEnv(env, key, def)
  {
  }

  /** A non-empty default guarantees a non-empty setting. */
  lemma DefaultFallback(env: Environment, key: string, def: string)
    ensures def != [] ==> GetEnv(env, key, def) != []
  {
  }

  /** The command-line options, which the program keeps in process-wide
      variables set by `flag.Parse`. */
  datatype Options = Options(
    accessKey: string,
    secretKey: string,
    bucket: string,
    region: string,
    profile: string,
    maxRate: string,
    reverse: bool)

  /** Credential material from the shared credentials file, as
      `credentials.NewSharedCredentials` builds it; an empty file name selects
      the SDK's default credentials file. The file is read lazily by the AWS
      SDK, which is not part of this model, so constructing it never fails. */
  datatype Credentials = SharedCredentials(filename: string, profile: string)

  datatype CredentialError = NoCredentials

  /** `getCredential`: a named profile gives shared-file credentials for that
      profile from the default file; without one there are no credentials.
      The explicit access and secret keys are not consulted. */
  function GetCredential(opts: Options): (r: Result<Credentials, CredentialError>)
    ensures r.Failure? <==> opts.profile == []
    ensures r.Failure? ==> r.error == NoCredentials
    ensures r.Success? ==> r.value.profile == opts.profile && r.value.filename == []
  {
    if |opts.profile| != 0 then
      Success(SharedCredentials("", opts.profile))
    else
      Failure(NoCredentials)
  }

  /** The outcome depends on the profile name alone: two option sets with the
      same profile, whatever their keys, bucket or region, resolve alike. */
  lemma CredentialDependsOnProfileOnly(a: Options, b: Options)
    requires a.profile == b.profile
    ensures GetCredential(a) == GetCredential(b)
  {
  }

  /** In particular, explicit keys never rescue a missing profile. */
  lemma KeysNeverConsulted(opts: Options, accessKey: string, secretKey: string)
    ensures GetCredential(opts.(accessKey := accessKey, secretKey := secretKey)) == GetCredential(opts)
    ensures opts.profile == [] ==> GetCredential(opts) == Failure(NoCredentials)
  {
  }
}

=== FILE: strconv.dfy ===
/** Go's `strconv.Atoi` on a 64-bit platform, stated as a specification:
    an optional `+` or `-`, then one or more decimal digits, whose value fits
    in a signed 64-bit integer. Anything else is an error. Its partner is
    `Itoa`, the canonical decimal rendering, and the round trip between the
    two. */
module Strconv {
  import opened Results

  const MinInt64: int := -0x8000_0000_0000_0000
  const MaxInt64: int := 0x7FFF_FFFF_FFFF_FFFF

  predicate InInt64(n: int)
  {
    MinInt64 <= n <= MaxInt64
  }

  /** Atoi reports a syntax error or a range error; both name the input. */
  datatype NumError = NumError(input: string)

  predicate IsDigit(c: char)
  {
    '0' <= c <= '9'
  }

  predicate IsSign(c: char)
  {
    c == '+' || c == '-'
  }

  predicate AllDigits(s: string)
  {
    forall i :: 0 <= i < |s| ==> IsDigit(s[i])
  }

  function DigitValue(c: char): nat
    requires IsDigit(c)
  {
    (c - '0') as nat
  }

  function DigitChar(d: nat): (c: char)
    requires d < 10
    ensures IsDigit(c) && DigitValue(c) == d
  {
    ('0' as int + d) as char
  }

  /** The value of a string of decimal digits, most significant first. */
  function DigitsValue(s: string): nat
    requires AllDigits(s)
  {
    if |s| == 0 then 0
    else DigitsValue(s[..|s| - 1]) * 10 + DigitValue(s[|s| - 1])
  }

  /** Text Atoi accepts syntactically: a sign at most at the front, then at
      least one digit. */
  predicate IsIntegerText(s: string)
  {
    && |s| > 0
    && (IsDigit(s[0]) || (IsSign(s[0]) && |s| > 1))
    && AllDigits(s[1..])
  }

  function Atoi(s: string): (r: Result<int, NumError>)
    ensures r.Success? ==> IsIntegerText(s) && InInt64(r.value)
    ensures r.Success? ==> (r.value < 0 ==> s[0] == '-')
    ensures r.Failure? ==> r.error.input == s
  {
    if |s| == 0 then Failure(NumError(s))
    else
      var body := if IsSign(s[0]) then s[1..] else s;
      if |body| == 0 || !AllDigits(body) then Failure(NumError(s))
      else
        var n: int := if s[0] == '-' then -(DigitsValue(body) as int) else DigitsValue(body);
        if InInt64(n) then Success(n) else Failure(NumError(s))
  }

  /** Decimal digits of a natural number, without leading zeros. */
  function NatDigits(n: nat): (s: string)
    ensures |s| >= 1 && AllDigits(s)
    ensures DigitsValue(s) == n
    ensures s[0] == '0' ==> n == 0
  {
    if n < 10 then [DigitChar(n)]
    else
      var s := NatDigits(n / 10) + [DigitChar(n % 10)];
      assert s[..|s| - 1] == NatDigits(n / 10);
      s
  }

  /** `strconv.Itoa`: the canonical decimal text of an integer. */
  function Itoa(n: int): (s: string)
    ensures IsIntegerText(s)
    ensures forall i :: 0 <= i < |s| ==> IsDigit(s[i]) || s[i] == '-'
  {
    if n < 0 then "-" + NatDigits(-n) else NatDigits(n)
  }

  /** Atoi reads back exactly what Itoa writes, and fails precisely when the
      value does not fit in 64 bits. */
  lemma AtoiItoa(n: int)
    ensures Atoi(Itoa(n)) == if InInt64(n) then Success(n) else Failure(NumError(Itoa(n)))
  {
    var s := Itoa(n);
    if n < 0 {
      assert s[1..] == NatDigits(-n);
    }
  }

  predicate AllZeros(z: string)
  {
    forall i :: 0 <= i < |z| ==> z[i] == '0'
  }

  /** Leading zeros never change the value. */
  lemma {:induction false} LeadingZeros(z: string, s: string)
    requires AllZeros(z)
    requires AllDigits(s)
    ensures AllDigits(z + s) && DigitsValue(z + s) == DigitsValue(s)
    decreases |s|
  {
    var t := z + s;
    assert AllDigits(t) by {
      forall i | 0 <= i < |t| ensures IsDigit(t[i]) {
        if i < |z| { assert t[i] == z[i]; } else { assert t[i] == s[i - |z|]; }
      }
    }
    if |s| == 0 {
      assert t == z;
      ZerosValue(z);
    } else {
      var s' := s[..|s| - 1];
      LeadingZeros(z, s');
      assert t[..|t| - 1] == z + s';
    }
  }

  lemma {:induction false} ZerosValue(z: string)
    requires AllZeros(z)
    ensures AllDigits(z) && DigitsValue(z) == 0
  {
    if |z| > 0 {
      ZerosValue(z[..|z| - 1]);
    }
  }

  /** Atoi also accepts a leading `+` or `-` and leading zeros, which Itoa
      never writes, and reads the value they spell; `-0` is zero. A value
      outside the signed 64-bit range is an error naming the text. */
  lemma AtoiSignZeros(sign: string, z: string, n: nat)
    requires sign == "" || sign == "+" || sign == "-"
    requires AllZeros(z)
    ensures var v: int := if sign == "-" then -(n as int) else n;
            Atoi(sign + z + NatDigits(n)) ==
              if InInt64(v) then Success(v) else Failure(NumError(sign + z + NatDigits(n)))
  {
    LeadingZeros(z, NatDigits(n));
    AtoiSignedDigits(sign, z + NatDigits(n));
    Associate(sign, z, NatDigits(n));
  }

  /** An optional sign followed by digits is read as their signed value. */
  lemma AtoiSignedDigits(sign: string, t: string)
    requires sign == "" || sign == "+" || sign == "-"
    requires AllDigits(t) && t != []
    ensures var v: int := if sign == "-" then -(DigitsValue(t) as int) else DigitsValue(t);
            Atoi(sign + t) == if InInt64(v) then Success(v) else Failure(NumError(sign + t))
  {
    var s := sign + t;
    if sign == "" {
      assert s == t;
    } else {
      assert s[0] == sign[0];
      assert s[1..] == t;
    }
  }

  /** A digit string that does not start with `0` has a positive value. */
  lemma {:induction false} NonZeroLead(e: string)
    requires AllDigits(e) && e != [] && e[0] != '0'
    ensures DigitsValue(e) > 0
    decreases |e|
  {
    if |e| > 1 {
      NonZeroLead(e[..|e| - 1]);
    }
  }

  /** Digits without a superfluous leading zero are the canonical digits of
      their own value: NatDigits is the only such rendering. */
  lemma {:induction false} CanonicalDigits(e: string)
    requires AllDigits(e) && e != [] && (e[0] != '0' || |e| == 1)
    ensures NatDigits(DigitsValue(e)) == e
    decreases |e|
  {
    if |e| > 1 {
      var e' := e[..|e| - 1];
      var d := DigitValue(e[|e| - 1]);
      var v := DigitsValue(e);
      NonZeroLead(e');
      CanonicalDigits(e');
      assert v == DigitsValue(e') * 10 + d;
      assert v / 10 == DigitsValue(e') && v % 10 == d;
      assert DigitChar(d) == e[|e| - 1];
      assert e == e' + [e[|e| - 1]];
    }
  }

  /** How many zeros lead `d`, short of its last digit. */
  function LeadingZeroCount(d: string): (k: nat)
    requires AllDigits(d) && d != []
    ensures k < |d| && AllZeros(d[..k])
    ensures d[k] != '0' || k == |d| - 1
  {
    if |d| == 1 || d[0] != '0' then 0
    else
      var k := 1 + LeadingZeroCount(d[1..]);
      assert d[..k] == [d[0]] + d[1..][..k - 1];
      k
  }

  /** Integer text taken apart: a sign, superfluous zeros, and the canonical
      digits of the magnitude. */
  datatype IntegerParts = IntegerParts(sign: string, zeros: string, magnitude: nat)

  /** The value the parts spell. */
  function SignedValue(p: IntegerParts): int
  {
    if p.sign == "-" then -(p.magnitude as int) else p.magnitude
  }

  /** The sign at the front of integer text, if there is one; the rest is
      digits. */
  function SignOf(s: string): (sign: string)
    requires IsIntegerText(s)
    ensures sign == "" || sign == "+" || sign == "-"
    ensures |sign| < |s| && AllDigits(s[|sign|..]) && s == sign + s[|sign|..]
  {
    if IsSign(s[0]) then
      assert s == s[..1] + s[1..];
      s[..1]
    else
      assert forall i :: 1 <= i < |s| ==> s[i] == s[1..][i - 1];
      ""
  }

  /** Digits are their leading zeros followed by the canonical digits of
      their value. */
  lemma ZerosThenCanonical(d: string)
    requires AllDigits(d) && d != []
    ensures d == d[..LeadingZeroCount(d)] + NatDigits(DigitsValue(d))
  {
    var k := LeadingZeroCount(d);
    var z, e := d[..k], d[k..];
    assert d == z + e;
    LeadingZeros(z, e);
    CanonicalDigits(e);
  }

  /** Regrouping a concatenation. Stated once so that `Parts` can cite the
      fact instead of the verifier re-deriving it element by element, which
      costs far more. */
  lemma Associate(a: string, b: string, c: string)
    ensures a + (b + c) == a + b + c
  {
  }

  /** Every text Atoi accepts syntactically has exactly this shape. */
  function Parts(s: string): (p: IntegerParts)
    requires IsIntegerText(s)
    ensures p.sign == "" || p.sign == "+" || p.sign == "-"
    ensures AllZeros(p.zeros)
    ensures s == p.sign + p.zeros + NatDigits(p.magnitude)
  {
    var sign := SignOf(s);
    var body := s[|sign|..];
    var z := body[..LeadingZeroCount(body)];
    var n := DigitsValue(body);
    ZerosThenCanonical(body);
    Associate(sign, z, NatDigits(n));
    IntegerParts(sign, z, n)
  }

  /** The converse of Atoi's contract: integer text is read as the value it
      spells, and is an error exactly when that value does not fit. */
  lemma AtoiIntegerText(s: string)
    requires IsIntegerText(s)
    ensures Atoi(s) ==
              if InInt64(SignedValue(Parts(s))) then Success(SignedValue(Parts(s)))
              else Failure(NumError(s))
  {
    var p := Parts(s);
    AtoiSignZeros(p.sign, p.zeros, p.magnitude);
  }
}
